=== FILE: README.md ===
# Server-status bot: a Dafny model of its decision logic

The bot watches a list of web addresses and reports to a chat channel. On a
timer it GETs every address. When an address answers with a status code
other than the one stored for it, the bot posts a message to the channel.
The message gives the address, the new code and the response headers. The
bot then stores the new code. A chat message can also start a check. It
must be posted in a channel, not written by the bot itself or by slackbot,
and mention "server status" or the bot's name. Such a check is *forced*:
every host that answers is reported, changed or not.

This project models that logic as pure functions over immutable data. The
chat session, the timer and the HTTP client are left out. Probe responses
come in as inputs, and the posts come out as values.

- `wrappers.dfy`, module `Wrappers`: `Option`, which stands for JavaScript's `null`/`undefined`.
- `text.dfy`, module `Text`: the JavaScript string operations the bot uses.
  These are `indexOf`, a prefix test, `toLowerCase` on ASCII letters,
  `split`/`join` on one character, and how an integer is written out inside
  a string concatenation. Each comes with the lemma that pins it down: the
  split/join round trips both ways, and parse-after-render for numbers.
- `notifier.dfy`, module `Notifier`: the text of a status message. Read line
  by line, it is the headline followed by one `name: value` line per header.
- `registry.dfy`, module `Registry`: the host registry built from the
  comma-separated host list, the transport each request uses, the
  notify-then-record rule for one response, and a whole check cycle as a fold
  over per-host responses.
- `trigger.dfy`, module `Trigger`: the five predicates `_onMessage` combines.
- `bot.dfy`, module `Bot`: configuration defaults, one step per event (a
  timer tick or an incoming message), and runs of events. The main lemma here
  is that every registry entry holds the code of the latest response applied
  to it.

Modelling choices:
- A host's status is `Option<int>`, with `None` for the initial `null`.
- Headers are a `seq<(string, string)>` in key order.
- One check cycle takes a `seq<Option<Response>>` with one entry per host.
  `None` means that host's response callback did not run during the cycle.
  The source has no error handler, so no failure message is modelled.
- The source runs probes concurrently, and its callbacks may finish in any
  order. The model applies them in host order. `Registry.ApplyCommutes`
  proves that two responses for different hosts commute: the registry ends
  the same, and each host posts the same message, in either order. The
  model does not prove the general case of an arbitrary completion order
  over a whole cycle. The order in which messages reach the channel does
  depend on completion order; the model fixes it to host order.
  `Registry.CheckHosts` is proved equal to the per-host `Reports`, where each
  host is judged against its own status before the cycle.
- The bot's user id is a parameter. The source looks it up from the users
  the chat platform supplies.

Behaviour of the code worth knowing:
- The code does not reject an empty host list. `"".split(',')` is `[""]`,
  which gives one host with an empty address (`Registry.BuildRegistry`
  guarantees at least one entry), and the first check then crashes: `http.get`
  cannot parse the empty address. The `|| 'https://google.com'` fallback on
  line 13 can never be taken: `split` always returns an array, and arrays are
  truthy.
- Headers are appended in the order of the header object's keys.
- No failure path exists. The code registers only a response callback.
- The stored status is overwritten with the new code after every response,
  whether or not it changed (`Registry.ApplyResult`).

## Model

| member | source | states |
|---|---|---|
| `Text.IndexOf` | lib/serverstatusbot.js:188-189 | `indexOf` returns -1 exactly when the pattern occurs nowhere. Otherwise it returns the position of the first occurrence. |
| `Text.IndexOfZero` | lib/serverstatusbot.js:89 | `indexOf(p) === 0` holds exactly when the string starts with `p`. |
| `Text.ToLowerAscii` | lib/serverstatusbot.js:188 | Lowercasing keeps the length, leaves no ASCII capital, keeps every other character, and maps each capital to the lowercase letter at the same place in the alphabet. |
| `Text.LowerIdempotent` | lib/serverstatusbot.js:188 | Lowercasing twice gives the same result as lowercasing once. |
| `Text.Split` | lib/serverstatusbot.js:13 | Splitting on a character gives at least one piece, and no piece contains the separator. |
| `Text.SplitJoin` | lib/serverstatusbot.js:13 | Joining the pieces of a split with the separator gives back the original string. |
| `Text.JoinSplit` | lib/serverstatusbot.js:13 | Splitting a join of separator-free pieces gives back exactly those pieces. |
| `Text.IntToString` | lib/serverstatusbot.js:141 | A number of magnitude below 10^21, such as any status code, is written in a string concatenation with decimal digits, and with a leading `-` exactly when it is negative. |
| `Text.ParseIntToString` | lib/serverstatusbot.js:141 | The written form of a status code can be read back as the same number. |
| `Text.IntToStringInjective` | lib/serverstatusbot.js:141 | Two different codes always produce two different texts. |
| `Notifier.StatusMessage` | lib/serverstatusbot.js:140-148 | The message starts with `<host> is responding with status code <code>`. With no headers it is exactly that headline. |
| `Notifier.MessageLines` | lib/serverstatusbot.js:141-147 | Split at newlines, the message is the headline followed by one `name: value` line per header, in header order. This assumes the host and every header name and value contain no newline. |
| `Notifier.HeadlineCode` | lib/serverstatusbot.js:141 | The status code can be read back from the headline text after the host and the fixed phrase. |
| `Notifier.ExampleHeadline` | lib/serverstatusbot.js:141-147 | Host `http://example.test`, code 200 and no headers give exactly `http://example.test is responding with status code 200`. |
| `Registry.BuildRegistry` | lib/serverstatusbot.js:20-26 | The registry has at least one entry. Every entry has a null status and a comma-free name. The names joined by commas give back the configured list. |
| `Registry.BuildRegistryOrder` | lib/serverstatusbot.js:13-26 | The registry has as many entries as the split host list has pieces. Entry `k` is the `k`-th address, with a null status. |
| `Registry.BuildRegistryUnique` | lib/serverstatusbot.js:13-26 | Any host list with null statuses and comma-free names that joins back to the configuration equals the built registry. |
| `Registry.TransportFor` | lib/serverstatusbot.js:89-91 | HTTPS is chosen exactly when the address starts with `https://`; HTTP is chosen otherwise. |
| `Registry.IssueRequests` | lib/serverstatusbot.js:86-95 | A check issues one request per host, in registry order. Request `k` carries index `k` and host `k`'s address, and uses HTTPS exactly when the address starts with `https://`. |
| `Registry.ApplyResult` | lib/serverstatusbot.js:101-106 | A message is posted exactly when the stored status differs from the new code or the check is forced. The message is the status message for this host, code and headers. Entry `i` then holds the new code either way, no other entry changes, and the length stays the same. |
| `Registry.RepeatIsQuiet` | lib/serverstatusbot.js:103-104 | After one response, an unforced second response with the same code posts nothing. |
| `Registry.ForcedAlwaysReports` | lib/serverstatusbot.js:114 | A forced response always posts a message. |
| `Registry.ApplyCommutes` | lib/serverstatusbot.js:88-94 | Responses for two different hosts give the same registry in either completion order, and each posts the same message in either order. |
| `Registry.CheckFrom` | lib/serverstatusbot.js:87-93 | Folding the responses from host `k` on leaves earlier entries alone, settles every later entry, and posts each later host's own report, in order. |
| `Registry.CheckHosts` | lib/serverstatusbot.js:86-95 | After a cycle, each responding host holds its new code and every other host keeps its status. The posts are each host's own report, judged against that host's status before the cycle, in host order. |
| `Registry.ForcedCycleReportsAll` | lib/serverstatusbot.js:114 | A forced cycle posts exactly one message per host that responded. |
| `Registry.CycleReportsChanges` | lib/serverstatusbot.js:103 | An unforced cycle posts exactly one message per host whose code changed, and no others. |
| `Registry.NoResponsesNoReports` | lib/serverstatusbot.js:101-117 | A cycle in which no callback ran posts nothing, forced or not. |
| `Registry.CurrentIsQuiet` | lib/serverstatusbot.js:103-104 | An unforced cycle posts nothing when every responding host already stores the code it returns. |
| `Registry.RepeatedCycleIsQuiet` | lib/serverstatusbot.js:114-115 | After a cycle, an unforced cycle that sees the same codes posts nothing. |
| `Trigger.IsChatMessage` | lib/serverstatusbot.js:167-169 | A message is chat exactly when its type is `message` and its text is present and non-empty. A missing or empty text, or any other type, is never chat. |
| `Trigger.IsChannelConversation` | lib/serverstatusbot.js:177-179 | A message is a channel conversation exactly when its channel id is present and starts with `C`. |
| `Trigger.IsFromServerStatusBot` | lib/serverstatusbot.js:198-200 | A message is from the bot exactly when its user is present and equals the bot's user id. |
| `Trigger.IsFromSlackBot` | lib/serverstatusbot.js:208-210 | A message is from slackbot exactly when its username is present and equals `slackbot`. |
| `Trigger.IsMentioningServerStatus` | lib/serverstatusbot.js:187-190 | This holds exactly when the lowercased text contains `server status` or contains the bot name, which is not lowercased. |
| `Trigger.IsTrigger` | lib/serverstatusbot.js:123-130 | A message triggers exactly when all of these hold: its type is `message`; its text is non-empty; its channel starts with `C`; its user is not the bot's id; its username is not `slackbot`; and its lowercased text mentions the phrase or the name. |
| `Trigger.AnyFailedTestRejects` | lib/serverstatusbot.js:124-130 | If any one of the five tests fails, the message does not trigger. |
| `Trigger.DirectMessageNeverTriggers` | lib/serverstatusbot.js:178 | A message whose channel id starts with `D` never triggers. |
| `Trigger.MentionIgnoresCase` | lib/serverstatusbot.js:188-189 | The mention test gives the same answer for a text and for its lowercased form. |
| `Trigger.CapitalisedNameNeverMatches` | lib/serverstatusbot.js:189 | If the bot name contains an ASCII capital, only the phrase `server status` can trigger. |
| `Trigger.PhraseInChannelTriggers` | lib/serverstatusbot.js:124-130 | "what's the server status?" in `C123`, from an ordinary user, triggers under the default name. |
| `Trigger.PhraseInDirectMessageIgnored` | lib/serverstatusbot.js:178 | The same message in `D123` does not trigger. |
| `Trigger.GreetingIgnored` | lib/serverstatusbot.js:188-189 | "hello" in `C123` does not trigger under the default name. |
| `Bot.OrDefault` | lib/serverstatusbot.js:38 | A missing or empty setting falls back to the default. Any other setting is used as given. |
| `Bot.Start` | lib/serverstatusbot.js:12-38 | At start the registry is built from the host list and the bot keeps the user id it was given. The channel defaults to `server-status` and the name to `serverstatusbot` when unset or empty. |
| `Bot.Step` | lib/serverstatusbot.js:123-134 | A tick posts once per changed host. A triggering message posts once per responding host. Any other message changes nothing and posts nothing. The posts are, in host order, the status messages of the hosts whose reports the applied responses call for, each sent to the configured channel. Each entry settles with the responses the event applies. |
| `Bot.Run` | lib/serverstatusbot.js:75-79 | A run is the bot's events (interval ticks and incoming messages) handled one after another. Over any run the configuration, the number of hosts and their names stay the same, and every post goes to the configured channel. |
| `Bot.RunSingle` | lib/serverstatusbot.js:123-134 | A run of one event, tick or message, makes exactly that event's step: the same registry and the same posts. |
| `Bot.RunAppend` | lib/serverstatusbot.js:75-79 | Handling one batch of events and then another is handling their concatenation. The second batch starts from the registry the first left, and the posts are the first batch's followed by the second's. With `Bot.RunSingle`, a run's posts are each event's step posts, in event order. |
| `Bot.RunRecordsLastSeen` | lib/serverstatusbot.js:101-117 | After any run of events, each entry holds the code of the latest response applied to it. With no such response it keeps its earlier status. |
| `Bot.FirstProbeThenRepeat` | lib/serverstatusbot.js:101-106 | For one fresh host `http://example.test`, a first 200 posts the bare headline once and records 200. A second 200 posts nothing. |

## Left out

- The chat library wiring is not modelled. This covers `util.inherits`, `run`, and the `start`/`message` handlers (lines 41-61), which belong to a foreign library.
- `postMessageToChannel` becomes a `Post(channel, text)` value. Its `{as_user: true}` option is not modelled.
- `setInterval` and the `INTERVAL` setting (lines 14, 75-79) are timing. A tick is an event in the model.
- `async.each` concurrency (lines 88-94) is not modelled. A cycle is a sequential fold in host order. `Registry.ApplyCommutes` shows only that two responses for different hosts can be applied in either order: the registry ends the same and each host produces the same report. In the running bot the posts reach the channel in the order the probes complete, and the model fixes that order to host order. Probes of one host that overlap across ticks are not modelled. Each event is processed whole.
- `http.get`/`https.get` (lines 102, 113) are network I/O. Status codes and headers are inputs. The unhandled `error` event is not modelled. In Node it would end the process, and the model only says that no callback ran.
- `http.get`/`https.get` (lines 90-91, 102, 113) throw synchronously for an address they cannot parse or whose scheme does not match the chosen transport. Examples are the empty address, an address with no scheme (`example.com`), and `HTTPS://example.test` in capitals, which the case-sensitive test on line 89 sends to `http.get`. The throw skips the remaining hosts of the cycle, before `i++` and `callback()` on lines 92-93, and ends the process. The model treats every address as probeable: `Bot.Step` on such a registry settles and posts as if the probe had answered.
- Reading environment variables and the `typeof` checks (lines 12-18) are not modelled. The model also leaves out the crash when `HOSTS` is unset.
- `_loadBotUser` and `_getChannelById` (lines 154-159, 218-222) are lookups over data from the chat platform. The bot's user id is a parameter instead, and the model leaves out the crash when no user matches the name.
- `_welcomeMessage` (lines 67-69) is never called.
- `console.log` (line 131) is output only.
- `bin/bot.js` is process bootstrap.
- Text.IntToString: writes every integer in plain decimal. JavaScript switches to exponent form (`1e+21`) at magnitude 10^21 and above. Node's status codes have three digits, so the gap never shows for a status message.
- Text.ToLowerAscii: covers ASCII letters only, because full Unicode case mapping is out of scope; `toLowerCase` also lowercases other scripts.
- Registry.ApplyResult: headers are name/value string pairs in key order. JavaScript puts integer-like keys first, in numeric order, and Node can give an array value for a repeated header. Neither is modelled.

=== FILE: bot.dfy ===
/**
 The bot as a whole: its configuration defaults, and how each event (a
 timer tick, or an incoming chat message) changes the registry and which
 messages it posts to the channel.
 */
module Bot {
  import opened Wrappers
  import opened Text
  import opened Notifier
  import opened Registry
  import opened Trigger

  const DefaultChannel := "server-status"
  const DefaultName := "serverstatusbot"

  /** JavaScript's `value || fallback` for a string that may be missing: empty counts as missing. */
  function OrDefault(value: Option<string>, fallback: string): (r: string)
    ensures value.Some? && value.value != "" ==> r == value.value
    ensures value == None || value == Some("") ==> r == fallback
  {
    match value
    case Some(v) => if v != "" then v else fallback
    case None => fallback
  }

  /**
   The running bot: the registry, the channel it posts to, the name it
   answers to, and its own user id on the chat platform.
   */
  datatype State = State(hosts: seq<Host>, channel: string, name: string, userId: string)

  /** A `postMessageToChannel` call. */
  datatype Post = Post(channel: string, text: string)

  /**
   What the bot reacts to, with the response each host's probe delivered
   (`None` when that host's callback did not run).
   */
  datatype Event =
    | Tick(results: seq<Option<Response>>)
    | Incoming(message: Message, results: seq<Option<Response>>)

  datatype Outcome = Outcome(bot: State, posts: seq<Post>)

  /** The bot after start-up, from the host list, the optional channel and name settings, and its user id. */
  function Start(hostList: string, channelSetting: Option<string>, nameSetting: Option<string>, userId: string): (b: State)
    ensures b.hosts == BuildRegistry(hostList)
    ensures b.userId == userId
    ensures channelSetting.Some? && channelSetting.value != "" ==> b.channel == channelSetting.value
    ensures channelSetting == None || channelSetting == Some("") ==> b.channel == "server-status"
    ensures nameSetting.Some? && nameSetting.value != "" ==> b.name == nameSetting.value
    ensures nameSetting == None || nameSetting == Some("") ==> b.name == "serverstatusbot"
  {
    State(BuildRegistry(hostList), OrDefault(channelSetting, DefaultChannel), OrDefault(nameSetting, DefaultName), userId)
  }

  function ToPosts(channel: string, texts: seq<string>): (posts: seq<Post>)
    ensures |posts| == |texts|
    ensures forall k :: 0 <= k < |texts| ==> posts[k] == Post(channel, texts[k])
  {
    seq(|texts|, k requires 0 <= k < |texts| => Post(channel, texts[k]))
  }

  /** No response at all: what an event that starts no check looks like to the registry. */
  function Silence(n: nat): (results: seq<Option<Response>>)
    ensures |results| == n
    ensures forall k :: 0 <= k < n ==> results[k] == None
  {
    seq(n, k requires 0 <= k < n => None)
  }

  predicate Forces(b: State, e: Event) {
    e.Incoming? && IsTrigger(e.message, b.userId, b.name)
  }

  /** The responses an event actually applies: a tick's and a trigger's, and none otherwise. */
  function Applies(b: State, e: Event): (results: seq<Option<Response>>)
    ensures |results| == (if e.Tick? || Forces(b, e) then |e.results| else |b.hosts|)
  {
    if e.Tick? || Forces(b, e) then e.results else Silence(|b.hosts|)
  }

  predicate Fits(b: State, e: Event) {
    |e.results| == |b.hosts|
  }

  /**
   One event. A tick checks every host unforced; a triggering message checks
   every host forced; any other message changes nothing and posts nothing.
   Every post goes to the configured channel.
   */
  function Step(b: State, e: Event): (o: Outcome)
    requires Fits(b, e)
    ensures o.bot.channel == b.channel && o.bot.name == b.name && o.bot.userId == b.userId
    ensures |o.bot.hosts| == |b.hosts|
    ensures forall k :: 0 <= k < |b.hosts| ==> o.bot.hosts[k] == Settle(b.hosts[k], Applies(b, e)[k])
    ensures forall p :: p in o.posts ==> p.channel == b.channel
    ensures e.Tick? ==> |o.posts| == Changed(b.hosts, e.results)
    ensures Forces(b, e) ==> |o.posts| == Responded(e.results)
    ensures e.Incoming? && !Forces(b, e) ==> o == Outcome(b, [])
    ensures o.posts == ToPosts(b.channel, Reports(b.hosts, Applies(b, e), Forces(b, e)))
  {
    if e.Tick? || Forces(b, e) then
      var c := CheckHosts(b.hosts, e.results, Forces(b, e));
      CycleReportsChanges(b.hosts, e.results);
      ForcedCycleReportsAll(b.hosts, e.results);
      Outcome(b.(hosts := c.hosts), ToPosts(b.channel, c.reports))
    else
      NoResponsesNoReports(b.hosts, Silence(|b.hosts|), false);
      Outcome(b, [])
  }

  predicate AllFit(b: State, events: seq<Event>) {
    forall k :: 0 <= k < |events| ==> |events[k].results| == |b.hosts|
  }

  /** A sequence of events, one after another, with all the posts they make. */
  function Run(b: State, events: seq<Event>): (o: Outcome)
    requires AllFit(b, events)
    decreases |events|
    ensures o.bot.channel == b.channel && o.bot.name == b.name && o.bot.userId == b.userId
    ensures |o.bot.hosts| == |b.hosts|
    ensures forall k :: 0 <= k < |b.hosts| ==> o.bot.hosts[k].name == b.hosts[k].name
    ensures forall p :: p in o.posts ==> p.channel == b.channel
  {
    if |events| == 0 then Outcome(b, [])
    else
      var first := Step(b, events[0]);
      var rest := Run(first.bot, events[1..]);
      Outcome(rest.bot, first.posts + rest.posts)
  }

  /** A run of one event is that event's step. */
  lemma RunSingle(b: State, e: Event)
    requires Fits(b, e)
    ensures AllFit(b, [e])
    ensures Run(b, [e]) == Step(b, e)
  {
    assert [e][1..] == [];
  }

  lemma DropFirstOfAppend<T>(xs: seq<T>, ys: seq<T>)
    requires |xs| > 0
    ensures (xs + ys)[0] == xs[0] && (xs + ys)[1..] == xs[1..] + ys
  {
  }

  /** Events that fit the bot still fit it once concatenated. */
  lemma AppendFits(b: State, xs: seq<Event>, ys: seq<Event>)
    requires AllFit(b, xs) && AllFit(b, ys)
    ensures AllFit(b, xs + ys)
  {
    forall k | 0 <= k < |xs + ys|
      ensures |(xs + ys)[k].results| == |b.hosts|
    {
      if k >= |xs| { assert (xs + ys)[k] == ys[k - |xs|]; }
    }
  }

  /**
   Running two batches of events back to back is running their concatenation:
   the second batch starts from the bot the first left, and the posts are the
   first batch's posts followed by the second's. With `RunSingle` this makes
   a run's posts each step's posts, in event order.
   */
  lemma {:induction false} RunAppend(b: State, xs: seq<Event>, ys: seq<Event>)
    requires AllFit(b, xs) && AllFit(b, ys)
    decreases |xs|
    ensures AllFit(b, xs + ys)
    ensures AllFit(Run(b, xs).bot, ys)
    ensures Run(b, xs + ys)
         == Outcome(Run(Run(b, xs).bot, ys).bot, Run(b, xs).posts + Run(Run(b, xs).bot, ys).posts)
  {
    AppendFits(b, xs, ys);
    if |xs| == 0 {
      assert xs + ys == ys;
    } else {
      var first := Step(b, xs[0]);
      var mid := Run(first.bot, xs[1..]);
      assert AllFit(first.bot, xs[1..]) && AllFit(mid.bot, ys) by {
        assert |first.bot.hosts| == |b.hosts|;
      }
      var tail := Run(mid.bot, ys);
      assert Run(b, xs) == Outcome(mid.bot, first.posts + mid.posts);
      assert Run(b, xs + ys) == Outcome(tail.bot, first.posts + (mid.posts + tail.posts)) by {
        DropFirstOfAppend(xs, ys);
        assert AllFit(first.bot, ys);
        RunAppend(first.bot, xs[1..], ys);
      }
      assert first.posts + (mid.posts + tail.posts) == (first.posts + mid.posts) + tail.posts;
    }
  }

  /**
   The status code host `k` reported in the latest event that applied a
   response to it, or `seen` when none did. Which events apply responses
   depends only on the bot's name, user id and number of hosts.
   */
  function LastSeen(b: State, k: nat, seen: Option<int>, events: seq<Event>): Option<int>
    requires k < |b.hosts|
    requires AllFit(b, events)
    decreases |events|
  {
    if |events| == 0 then seen
    else
      var result := Applies(b, events[0])[k];
      LastSeen(b, k, if result.Some? then Some(result.value.statusCode) else seen, events[1..])
  }

  /** The registry invariant: each entry holds the code of the most recent response applied to it. */
  lemma {:induction false} RunRecordsLastSeen(b: State, events: seq<Event>, k: nat)
    requires AllFit(b, events)
    requires k < |b.hosts|
    decreases |events|
    ensures Run(b, events).bot.hosts[k] == Host(b.hosts[k].name, LastSeen(b, k, b.hosts[k].status, events))
  {
    if |events| > 0 {
      var first := Step(b, events[0]).bot;
      assert AllFit(first, events[1..]);
      RunRecordsLastSeen(first, events[1..], k);
      assert first.hosts[k].status ==
        (if Applies(b, events[0])[k].Some? then Some(Applies(b, events[0])[k].value.statusCode)
         else b.hosts[k].status);
      SameConfigSameLastSeen(b, first, k, first.hosts[k].status, events[1..]);
    }
  }

  /** `LastSeen` reads only the configuration, not the statuses. */
  lemma {:induction false} SameConfigSameLastSeen(b: State, b': State, k: nat, seen: Option<int>, events: seq<Event>)
    requires b.name == b'.name && b.userId == b'.userId && |b.hosts| == |b'.hosts|
    requires k < |b.hosts|
    requires AllFit(b, events)
    decreases |events|
    ensures AllFit(b', events)
    ensures LastSeen(b, k, seen, events) == LastSeen(b', k, seen, events)
  {
    if |events| > 0 {
      assert Applies(b, events[0]) == Applies(b', events[0]);
      var result := Applies(b, events[0])[k];
      SameConfigSameLastSeen(b, b', k, if result.Some? then Some(result.value.statusCode) else seen, events[1..]);
    }
  }

  /**
   A single host "http://example.test" with no status: the first tick that
   sees 200 posts the bare headline once and records 200; a second 200 posts nothing.
   */
  lemma FirstProbeThenRepeat(channel: string, name: string, userId: string)
    ensures
      var b := State([Host("http://example.test", None)], channel, name, userId);
      var first := Step(b, Tick([Some(Response(200, []))]));
      var second := Step(first.bot, Tick([Some(Response(200, []))]));
      && first.posts == [Post(channel, "http://example.test is responding with status code 200")]
      && first.bot.hosts == [Host("http://example.test", Some(200))]
      && second.posts == []
  {
    var b := State([Host("http://example.test", None)], channel, name, userId);
    var results := [Some(Response(200, []))];
    var first := Step(b, Tick(results));
    assert Reports(b.hosts, results, false) == [StatusMessage("http://example.test", 200, [])] by {
      assert b.hosts[1..] == [] && results[1..] == [];
    }
    ExampleHeadline();
    assert Current(first.bot.hosts, results);
    CurrentIsQuiet(first.bot.hosts, results);
  }
}

=== FILE: notifier.dfy ===
/**
 The text the bot posts for one probe result: a headline naming the host and
 its status code, then one line per response header, in key order.
 */
module Notifier {
  import opened Text

  const Responding := " is responding with status code "

  /** The first line of every status message. */
  function Headline(host: string, code: int): string {
    host + Responding + IntToString(code)
  }

  function HeaderLine(header: (string, string)): string {
    header.0 + ": " + header.1
  }

  /** The header lines appended one by one, each after a newline. */
  function HeaderBlock(headers: seq<(string, string)>): string
    decreases |headers|
  {
    if |headers| == 0 then ""
    else HeaderBlock(headers[..|headers| - 1]) + "\n" + HeaderLine(headers[|headers| - 1])
  }

  function StatusMessage(host: string, code: int, headers: seq<(string, string)>): (msg: string)
    ensures StartsWith(msg, Headline(host, code))
    ensures |headers| == 0 ==> msg == Headline(host, code)
  {
    Headline(host, code) + HeaderBlock(headers)
  }

  /** One line per header, in order, as a reader of the message sees them. */
  function HeaderLines(headers: seq<(string, string)>): (lines: seq<string>)
    ensures |lines| == |headers|
    ensures forall k :: 0 <= k < |headers| ==> lines[k] == HeaderLine(headers[k])
  {
    seq(|headers|, k requires 0 <= k < |headers| => HeaderLine(headers[k]))
  }

  predicate NoNewline(s: string) {
    '\n' !in s
  }

  predicate HeadersOnOneLine(headers: seq<(string, string)>) {
    forall k :: 0 <= k < |headers| ==> NoNewline(headers[k].0) && NoNewline(headers[k].1)
  }

  lemma {:induction false} BlockIsJoin(first: string, headers: seq<(string, string)>)
    decreases |headers|
    ensures first + HeaderBlock(headers) == Join([first] + HeaderLines(headers), '\n')
  {
    if |headers| > 0 {
      var init := headers[..|headers| - 1];
      var last := headers[|headers| - 1];
      BlockIsJoin(first, init);
      assert HeaderLines(headers) == HeaderLines(init) + [HeaderLine(last)];
      assert [first] + HeaderLines(headers) == ([first] + HeaderLines(init)) + [HeaderLine(last)];
      JoinSnoc([first] + HeaderLines(init), HeaderLine(last), '\n');
    }
  }

  /**
   Read line by line, a status message is its headline followed by exactly
   one "name: value" line per header, in the headers' order.
   */
  lemma MessageLines(host: string, code: int, headers: seq<(string, string)>)
    requires NoNewline(host)
    requires HeadersOnOneLine(headers)
    ensures Split(StatusMessage(host, code, headers), '\n') == [Headline(host, code)] + HeaderLines(headers)
  {
    var parts := [Headline(host, code)] + HeaderLines(headers);
    BlockIsJoin(Headline(host, code), headers);
    assert NoNewline(Responding);
    assert NoNewline(IntToString(code));
    forall k | 0 <= k < |parts|
      ensures '\n' !in parts[k]
    {
      if k > 0 {
        assert parts[k] == headers[k - 1].0 + ": " + headers[k - 1].1;
      }
    }
    JoinSplit(parts, '\n');
  }

  /** The status code can be read back from the headline. */
  lemma HeadlineCode(host: string, code: int)
    ensures ParseInt(Headline(host, code)[|host| + |Responding|..]) == code
  {
    assert Headline(host, code)[|host| + |Responding|..] == IntToString(code);
    ParseIntToString(code);
  }

  /** With no headers the message is the headline alone. */
  lemma ExampleHeadline()
    ensures StatusMessage("http://example.test", 200, []) == "http://example.test is responding with status code 200"
  {
    assert NatToString(200) == "200" by {
      assert NatToString(2) == "2";
      assert NatToString(20) == "20";
    }
  }
}

=== FILE: registry.dfy ===
/**
 The monitored hosts and what one probe cycle does to them: the request
 issued per host, the notify-then-record rule applied when a response
 arrives, and a whole cycle as a fold of per-host responses.
 */
module Registry {
  import opened Wrappers
  import opened Text
  import opened Notifier

  /** One monitored address and the status code last seen for it (`None` for null). */
  datatype Host = Host(name: string, status: Option<int>)

  datatype Transport = Http | Https

  /** A GET issued by a check: which entry it reports back to, where, and how. */
  datatype Request = Request(index: nat, url: string, transport: Transport)

  /** What the response callback sees: the status code and the headers in key order. */
  datatype Response = Response(statusCode: int, headers: seq<(string, string)>)

  /** The registry after one response, and the message posted for it, if any. */
  datatype Applied = Applied(hosts: seq<Host>, report: Option<string>)

  /** The registry after a check cycle, and the messages posted during it, in host order. */
  datatype Cycle = Cycle(hosts: seq<Host>, reports: seq<string>)

  function Names(hosts: seq<Host>): (names: seq<string>)
    ensures |names| == |hosts|
    ensures forall k :: 0 <= k < |hosts| ==> names[k] == hosts[k].name
  {
    seq(|hosts|, k requires 0 <= k < |hosts| => hosts[k].name)
  }

  /**
   The registry built from the comma-separated host list: one entry per
   address, none containing a comma, all without a status, and together
   spelling out the configured list again.
   */
  function BuildRegistry(hostList: string): (hosts: seq<Host>)
    ensures |hosts| >= 1
    ensures forall k :: 0 <= k < |hosts| ==> hosts[k].status == None && ',' !in hosts[k].name
    ensures Join(Names(hosts), ',') == hostList
  {
    var parts := Split(hostList, ',');
    var hosts := seq(|parts|, k requires 0 <= k < |parts| => Host(parts[k], None));
    assert Names(hosts) == parts;
    SplitJoin(hostList, ',');
    hosts
  }

  /** Entry `k` is the `k`-th comma-separated address, with no status yet. */
  lemma BuildRegistryOrder(hostList: string)
    ensures |BuildRegistry(hostList)| == |Split(hostList, ',')|
    ensures forall k :: 0 <= k < |BuildRegistry(hostList)| ==>
              BuildRegistry(hostList)[k] == Host(Split(hostList, ',')[k], None)
  {
    var hosts := BuildRegistry(hostList);
    JoinSplit(Names(hosts), ',');
  }

  /** The registry is the only status-free, comma-free host list that joins back to the configuration. */
  lemma {:induction false} BuildRegistryUnique(hostList: string, hosts: seq<Host>)
    requires |hosts| >= 1
    requires forall k :: 0 <= k < |hosts| ==> hosts[k].status == None && ',' !in hosts[k].name
    requires Join(Names(hosts), ',') == hostList
    ensures hosts == BuildRegistry(hostList)
  {
    var built := BuildRegistry(hostList);
    JoinSplit(Names(hosts), ',');
    BuildRegistryOrder(hostList);
    assert |hosts| == |built|;
    forall k | 0 <= k < |hosts|
      ensures hosts[k] == built[k]
    {
      assert Names(hosts)[k] == Split(hostList, ',')[k];
    }
  }

  /** HTTPS for addresses whose `indexOf("https://")` is 0, HTTP for every other. */
  function TransportFor(url: string): (t: Transport)
    ensures t == Https <==> StartsWith(url, "https://")
  {
    IndexOfZero(url, "https://");
    if IndexOf(url, "https://") == 0 then Https else Http
  }

  /**
   The requests one check issues: one per host, in registry order, each
   tagged with the index the counter held when it was issued.
   */
  method IssueRequests(hosts: seq<Host>) returns (requests: seq<Request>)
    ensures |requests| == |hosts|
    ensures forall k :: 0 <= k < |hosts| ==>
              && requests[k].index == k
              && requests[k].url == hosts[k].name
              && (requests[k].transport == Https <==> StartsWith(hosts[k].name, "https://"))
  {
    requests := [];
    var i := 0;
    while i < |hosts|
      invariant 0 <= i <= |hosts|
      invariant |requests| == i
      invariant forall k :: 0 <= k < i ==>
                  && requests[k].index == k
                  && requests[k].url == hosts[k].name
                  && (requests[k].transport == Https <==> StartsWith(hosts[k].name, "https://"))
    {
      requests := requests + [Request(i, hosts[i].name, TransportFor(hosts[i].name))];
      i := i + 1;
    }
  }

  /**
   The response callback for host `i`: post a message when the stored status
   is not the new code or the check is forced, and record the new code either way.
   */
  function ApplyResult(hosts: seq<Host>, i: nat, response: Response, force: bool): (a: Applied)
    requires i < |hosts|
    ensures |a.hosts| == |hosts|
    ensures a.hosts[i] == Host(hosts[i].name, Some(response.statusCode))
    ensures forall k :: 0 <= k < |hosts| && k != i ==> a.hosts[k] == hosts[k]
    ensures a.report.Some? <==> hosts[i].status != Some(response.statusCode) || force
    ensures a.report.Some? ==> a.report.value == StatusMessage(hosts[i].name, response.statusCode, response.headers)
  {
    var code := response.statusCode;
    var report :=
      if hosts[i].status != Some(code) || force
      then Some(StatusMessage(hosts[i].name, code, response.headers))
      else None;
    Applied(hosts[i := hosts[i].(status := Some(code))], report)
  }

  /** Unforced, a second response with the same code posts nothing. */
  lemma RepeatIsQuiet(hosts: seq<Host>, i: nat, first: Response, second: Response, force: bool)
    requires i < |hosts|
    requires second.statusCode == first.statusCode
    ensures ApplyResult(ApplyResult(hosts, i, first, force).hosts, i, second, false).report == None
  {
  }

  /** Forced, every response posts exactly one message. */
  lemma ForcedAlwaysReports(hosts: seq<Host>, i: nat, response: Response)
    requires i < |hosts|
    ensures ApplyResult(hosts, i, response, true).report.Some?
  {
  }

  /**
   Responses for different hosts commute: whichever completes first, the
   registry ends the same and each host posts the same message.
   */
  lemma ApplyCommutes(hosts: seq<Host>, i: nat, j: nat, ri: Response, rj: Response, force: bool)
    requires i < |hosts| && j < |hosts| && i != j
    ensures ApplyResult(ApplyResult(hosts, i, ri, force).hosts, j, rj, force).hosts
         == ApplyResult(ApplyResult(hosts, j, rj, force).hosts, i, ri, force).hosts
    ensures ApplyResult(ApplyResult(hosts, i, ri, force).hosts, j, rj, force).report
         == ApplyResult(hosts, j, rj, force).report
    ensures ApplyResult(ApplyResult(hosts, j, rj, force).hosts, i, ri, force).report
         == ApplyResult(hosts, i, ri, force).report
  {
    var a := ApplyResult(ApplyResult(hosts, i, ri, force).hosts, j, rj, force).hosts;
    var b := ApplyResult(ApplyResult(hosts, j, rj, force).hosts, i, ri, force).hosts;
    assert |a| == |b|;
    forall k | 0 <= k < |a|
      ensures a[k] == b[k]
    {
    }
  }

  /** A host's entry after a cycle in which its response did (`Some`) or did not arrive. */
  function Settle(host: Host, result: Option<Response>): Host {
    match result
    case None => host
    case Some(response) => host.(status := Some(response.statusCode))
  }

  /** What one host posts in a cycle, judged against its status before the cycle. */
  function HostReports(host: Host, result: Option<Response>, force: bool): seq<string> {
    match result
    case None => []
    case Some(response) =>
      if host.status != Some(response.statusCode) || force
      then [StatusMessage(host.name, response.statusCode, response.headers)]
      else []
  }

  /** The posts of a cycle, host by host, each judged on its own. */
  function Reports(hosts: seq<Host>, results: seq<Option<Response>>, force: bool): seq<string>
    requires |results| == |hosts|
    decreases |hosts|
  {
    if |hosts| == 0 then []
    else HostReports(hosts[0], results[0], force) + Reports(hosts[1..], results[1..], force)
  }

  /**
   The fold of a cycle from host `k` on, threading the registry through each
   response. Position `k` of `results` is the response to the request that
   `IssueRequests` tagged with index `k`, so it is applied to entry `k`.
   */
  function CheckFrom(current: seq<Host>, results: seq<Option<Response>>, force: bool, k: nat): (c: Cycle)
    requires |results| == |current| && k <= |current|
    decreases |current| - k
    ensures |c.hosts| == |current|
    ensures forall j :: 0 <= j < k ==> c.hosts[j] == current[j]
    ensures forall j :: k <= j < |current| ==> c.hosts[j] == Settle(current[j], results[j])
    ensures c.reports == Reports(current[k..], results[k..], force)
  {
    if k == |current| then Cycle(current, [])
    else
      var a :=
        match results[k]
        case None => Applied(current, None)
        case Some(response) => ApplyResult(current, k, response, force);
      assert ToSeq(a.report) == HostReports(current[k], results[k], force);
      assert a.hosts[k + 1..] == current[k + 1..];
      assert current[k..][1..] == current[k + 1..];
      assert results[k..][1..] == results[k + 1..];
      var rest := CheckFrom(a.hosts, results, force, k + 1);
      Cycle(rest.hosts, ToSeq(a.report) + rest.reports)
  }

  /**
   One check cycle with the given per-host results (`None`: no response
   arrived). Every responding host ends with its new code, the others keep
   theirs, and the posts are exactly each host's own report, in host order.
   */
  function CheckHosts(hosts: seq<Host>, results: seq<Option<Response>>, force: bool): (c: Cycle)
    requires |results| == |hosts|
    ensures |c.hosts| == |hosts|
    ensures forall k :: 0 <= k < |hosts| ==> c.hosts[k] == Settle(hosts[k], results[k])
    ensures c.reports == Reports(hosts, results, force)
  {
    assert hosts[0..] == hosts && results[0..] == results;
    CheckFrom(hosts, results, force, 0)
  }

  /** Number of hosts whose response arrived. */
  function Responded(results: seq<Option<Response>>): (n: nat)
    ensures n <= |results|
  {
    if |results| == 0 then 0 else (if results[0].Some? then 1 else 0) + Responded(results[1..])
  }

  /** Number of hosts whose response arrived with a code other than the stored one. */
  function Changed(hosts: seq<Host>, results: seq<Option<Response>>): (n: nat)
    requires |results| == |hosts|
    ensures n <= Responded(results)
  {
    if |hosts| == 0 then 0
    else
      (if results[0].Some? && hosts[0].status != Some(results[0].value.statusCode) then 1 else 0)
      + Changed(hosts[1..], results[1..])
  }

  /** Forced, a cycle posts once for every host that responded. */
  lemma {:induction false} ForcedCycleReportsAll(hosts: seq<Host>, results: seq<Option<Response>>)
    requires |results| == |hosts|
    decreases |hosts|
    ensures |Reports(hosts, results, true)| == Responded(results)
  {
    if |hosts| > 0 {
      ForcedCycleReportsAll(hosts[1..], results[1..]);
    }
  }

  /** Unforced, a cycle posts once for every host whose code changed, and never otherwise. */
  lemma {:induction false} CycleReportsChanges(hosts: seq<Host>, results: seq<Option<Response>>)
    requires |results| == |hosts|
    decreases |hosts|
    ensures |Reports(hosts, results, false)| == Changed(hosts, results)
  {
    if |hosts| > 0 {
      CycleReportsChanges(hosts[1..], results[1..]);
    }
  }

  /** A cycle in which no response arrived posts nothing, forced or not. */
  lemma {:induction false} NoResponsesNoReports(hosts: seq<Host>, results: seq<Option<Response>>, force: bool)
    requires |results| == |hosts|
    requires forall k :: 0 <= k < |results| ==> results[k] == None
    decreases |hosts|
    ensures Reports(hosts, results, force) == []
  {
    if |hosts| > 0 {
      assert forall k :: 0 <= k < |results| - 1 ==> results[1..][k] == results[k + 1];
      NoResponsesNoReports(hosts[1..], results[1..], force);
    }
  }

  /** A host list that already holds every code a cycle would record. */
  predicate Current(hosts: seq<Host>, results: seq<Option<Response>>)
    requires |results| == |hosts|
  {
    forall k :: 0 <= k < |hosts| && results[k].Some? ==> hosts[k].status == Some(results[k].value.statusCode)
  }

  lemma {:induction false} CurrentIsQuiet(hosts: seq<Host>, results: seq<Option<Response>>)
    requires |results| == |hosts|
    requires Current(hosts, results)
    decreases |hosts|
    ensures Reports(hosts, results, false) == []
  {
    if |hosts| > 0 {
      assert Current(hosts[1..], results[1..]) by {
        forall k | 0 <= k < |hosts| - 1 && results[1..][k].Some?
          ensures hosts[1..][k].status == Some(results[1..][k].value.statusCode)
        {
          assert results[1..][k] == results[k + 1];
        }
      }
      CurrentIsQuiet(hosts[1..], results[1..]);
    }
  }

  /** Repeating an unforced cycle with the same codes posts nothing. */
  lemma RepeatedCycleIsQuiet(hosts: seq<Host>, first: seq<Option<Response>>, second: seq<Option<Response>>, force: bool)
    requires |first| == |hosts| && |second| == |hosts|
    requires forall k :: 0 <= k < |hosts| ==>
               second[k].Some? ==> first[k].Some? && first[k].value.statusCode == second[k].value.statusCode
    ensures CheckHosts(CheckHosts(hosts, first, force).hosts, second, false).reports == []
  {
    var after := CheckHosts(hosts, first, force).hosts;
    assert Current(after, second);
    CurrentIsQuiet(after, second);
  }
}

=== FILE: text.dfy ===
/**
 The string operations the bot relies on, with JavaScript's meaning:
 `indexOf`, prefix tests, ASCII lowercasing, `split` on one character,
 and the decimal rendering a number gets when it is appended to a string.
 */
module Text {

  /** `p` occurs in `s` starting at index `i`. */
  predicate OccursAt(s: string, p: string, i: int) {
    0 <= i && i + |p| <= |s| && s[i..i + |p|] == p
  }

  predicate StartsWith(s: string, p: string) {
    |p| <= |s| && s[..|p|] == p
  }

  /** Some occurrence of `p` lies inside `s` (the empty string occurs everywhere). */
  predicate Contains(s: string, p: string) {
    exists i :: 0 <= i <= |s| && OccursAt(s, p, i)
  }

  /** The search loop of `indexOf`, started at position `k`. */
  function SearchFrom(s: string, p: string, k: nat): (r: int)
    decreases |s| + 1 - k
    ensures r == -1 || (k <= r && OccursAt(s, p, r))
    ensures r == -1 ==> forall j :: k <= j ==> !OccursAt(s, p, j)
    ensures r >= 0 ==> forall j :: k <= j < r ==> !OccursAt(s, p, j)
  {
    if |s| < k + |p| then -1
    else if s[k..k + |p|] == p then k
    else SearchFrom(s, p, k + 1)
  }

  /** JavaScript's `s.indexOf(p)`: the first position of `p` in `s`, or -1. */
  function IndexOf(s: string, p: string): (r: int)
    ensures -1 <= r
    ensures r == -1 <==> !Contains(s, p)
    ensures r >= 0 ==> OccursAt(s, p, r) && forall j :: 0 <= j < r ==> !OccursAt(s, p, j)
  {
    SearchFrom(s, p, 0)
  }

  /** `indexOf` finds `p` at position 0 exactly when `s` starts with `p`. */
  lemma IndexOfZero(s: string, p: string)
    ensures IndexOf(s, p) == 0 <==> StartsWith(s, p)
  {
    assert OccursAt(s, p, 0) <==> StartsWith(s, p);
  }

  predicate IsUpperAscii(c: char) {
    'A' <= c <= 'Z'
  }

  function LowerChar(c: char): char {
    if IsUpperAscii(c) then (c as int - 'A' as int + 'a' as int) as char else c
  }

  /** `toLowerCase`, restricted to the ASCII letters. */
  function ToLowerAscii(s: string): (r: string)
    ensures |r| == |s|
    ensures forall i :: 0 <= i < |s| ==> !IsUpperAscii(r[i])
    ensures forall i :: 0 <= i < |s| && !IsUpperAscii(s[i]) ==> r[i] == s[i]
    ensures forall i :: 0 <= i < |s| && IsUpperAscii(s[i]) ==>
              'a' <= r[i] <= 'z' && r[i] as int - 'a' as int == s[i] as int - 'A' as int
  {
    seq(|s|, i requires 0 <= i < |s| => LowerChar(s[i]))
  }

  /** Lowercasing leaves a string without capitals untouched; in particular it is idempotent. */
  lemma LowerOfLower(s: string)
    requires forall i :: 0 <= i < |s| ==> !IsUpperAscii(s[i])
    ensures ToLowerAscii(s) == s
  {
  }

  lemma LowerIdempotent(s: string)
    ensures ToLowerAscii(ToLowerAscii(s)) == ToLowerAscii(s)
  {
    LowerOfLower(ToLowerAscii(s));
  }

  /**
   JavaScript's `s.split(sep)` for a one-character separator: the pieces
   between separators, in order. The empty string splits into one empty piece.
   */
  function Split(s: string, sep: char): (parts: seq<string>)
    decreases |s|
    ensures |parts| >= 1
    ensures forall k :: 0 <= k < |parts| ==> sep !in parts[k]
  {
    if |s| == 0 then [""]
    else
      var rest := Split(s[1..], sep);
      if s[0] == sep then [""] + rest
      else [[s[0]] + rest[0]] + rest[1..]
  }

  /** JavaScript's `parts.join(sep)`. */
  function Join(parts: seq<string>, sep: char): string
    decreases |parts|
  {
    if |parts| == 0 then ""
    else if |parts| == 1 then parts[0]
    else parts[0] + [sep] + Join(parts[1..], sep)
  }

  /** Joining after splitting restores the string. */
  lemma {:induction false} SplitJoin(s: string, sep: char)
    decreases |s|
    ensures Join(Split(s, sep), sep) == s
  {
    if |s| > 0 {
      var rest := Split(s[1..], sep);
      SplitJoin(s[1..], sep);
      if s[0] == sep {
        assert Split(s, sep) == [""] + rest;
        assert ([""] + rest)[1..] == rest;
        assert [s[0]] + s[1..] == s;
      } else if |rest| == 1 {
        assert Split(s, sep) == [[s[0]] + rest[0]];
        assert [s[0]] + s[1..] == s;
      } else {
        var parts := [[s[0]] + rest[0]] + rest[1..];
        assert Split(s, sep) == parts;
        assert parts[1..] == rest[1..];
        assert Join(rest, sep) == rest[0] + [sep] + Join(rest[1..], sep);
        assert [s[0]] + s[1..] == s;
      }
    }
  }

  /** A string without the separator is one piece. */
  lemma {:induction false} SplitNoSeparator(a: string, sep: char)
    requires sep !in a
    decreases |a|
    ensures Split(a, sep) == [a]
  {
    if |a| > 0 {
      SplitNoSeparator(a[1..], sep);
      assert [a[0]] + a[1..] == a;
    }
  }

  /** Splitting at the first separator. */
  lemma {:induction false} SplitFirst(a: string, b: string, sep: char)
    requires sep !in a
    decreases |a|
    ensures Split(a + [sep] + b, sep) == [a] + Split(b, sep)
  {
    var s := a + [sep] + b;
    if |a| == 0 {
      assert s[1..] == b;
    } else {
      assert s[1..] == a[1..] + [sep] + b;
      SplitFirst(a[1..], b, sep);
      assert [a[0]] + a[1..] == a;
    }
  }

  /** Splitting after joining separator-free pieces restores the pieces. */
  lemma {:induction false} JoinSplit(parts: seq<string>, sep: char)
    requires |parts| >= 1
    requires forall k :: 0 <= k < |parts| ==> sep !in parts[k]
    decreases |parts|
    ensures Split(Join(parts, sep), sep) == parts
  {
    if |parts| == 1 {
      SplitNoSeparator(parts[0], sep);
    } else {
      JoinSplit(parts[1..], sep);
      SplitFirst(parts[0], Join(parts[1..], sep), sep);
      assert [parts[0]] + parts[1..] == parts;
    }
  }

  /** Joining one more piece appends a separator and that piece. */
  lemma {:induction false} JoinSnoc(parts: seq<string>, x: string, sep: char)
    requires |parts| >= 1
    decreases |parts|
    ensures Join(parts + [x], sep) == Join(parts, sep) + [sep] + x
  {
    if |parts| > 1 {
      assert (parts + [x])[1..] == parts[1..] + [x];
      JoinSnoc(parts[1..], x, sep);
    }
  }

  predicate IsDigit(c: char) {
    '0' <= c <= '9'
  }

  function Digit(d: nat): (c: char)
    requires d < 10
    ensures IsDigit(c)
  {
    ('0' as int + d) as char
  }

  function DigitValue(c: char): nat {
    if IsDigit(c) then c as int - '0' as int else 0
  }

  /** Decimal digits of `n`, most significant first, without leading zeros. */
  function NatToString(n: nat): (s: string)
    decreases n
    ensures |s| >= 1
    ensures forall i :: 0 <= i < |s| ==> IsDigit(s[i])
    ensures s[0] == '0' <==> n == 0
  {
    if n < 10 then [Digit(n)] else NatToString(n / 10) + [Digit(n % 10)]
  }

  /** Reads a string of decimal digits back as a number. */
  function ParseNat(s: string): nat
    decreases |s|
  {
    if |s| == 0 then 0 else 10 * ParseNat(s[..|s| - 1]) + DigitValue(s[|s| - 1])
  }

  lemma {:induction false} ParseNatToString(n: nat)
    decreases n
    ensures ParseNat(NatToString(n)) == n
  {
    var s := NatToString(n);
    if n < 10 {
      assert s[..0] == [];
    } else {
      assert s[..|s| - 1] == NatToString(n / 10);
      ParseNatToString(n / 10);
    }
  }

  /**
   How JavaScript renders an integer-valued number of magnitude below 10^21
   (every HTTP status code) inside a string concatenation.
   */
  function IntToString(i: int): (s: string)
    ensures |s| >= 1
    ensures forall k :: 0 <= k < |s| ==> IsDigit(s[k]) || s[k] == '-'
    ensures s[0] == '-' <==> i < 0
  {
    if i < 0 then "-" + NatToString(-i) else NatToString(i)
  }

  function ParseInt(s: string): int {
    if |s| > 0 && s[0] == '-' then 0 - ParseNat(s[1..]) else ParseNat(s)
  }

  /** The rendering loses nothing: the number can be read back from its text. */
  lemma ParseIntToString(i: int)
    ensures ParseInt(IntToString(i)) == i
  {
    if i < 0 {
      assert IntToString(i)[1..] == NatToString(-i);
      ParseNatToString(-i);
    } else {
      ParseNatToString(i);
    }
  }

  /** Distinct numbers render as distinct strings. */
  lemma IntToStringInjective(i: int, j: int)
    requires IntToString(i) == IntToString(j)
    ensures i == j
  {
    ParseIntToString(i);
    ParseIntToString(j);
  }
}

=== FILE: trigger.dfy ===
/**
 Which incoming chat events make the bot re-check every host and report
 each one: a channel message, not from the bot or from slackbot, that
 mentions "server status" or the bot's name.
 */
module Trigger {
  import opened Wrappers
  import opened Text

  /** The fields of a real-time event the classifier reads; absent ones are `None`. */
  datatype Message = Message(
    kind: string,
    text: Option<string>,
    channel: Option<string>,
    user: Option<string>,
    username: Option<string>)

  const Phrase := "server status"
  const SlackbotName := "slackbot"

  /** A chat message with non-empty text: missing and empty text are both falsy. */
  function IsChatMessage(m: Message): (r: bool)
    ensures r <==> m.kind == "message" && m.text.Some? && |m.text.value| > 0
  {
    m.kind == "message" && m.text.Some? && m.text.value != ""
  }

  /** Posted in a channel: the channel id is a string whose first character is `C`. */
  function IsChannelConversation(m: Message): (r: bool)
    ensures r <==> m.channel.Some? && StartsWith(m.channel.value, "C")
  {
    match m.channel
    case None => false
    case Some(c) => |c| > 0 && c[0] == 'C'
  }

  /** Written by the bot's own user id. */
  function IsFromServerStatusBot(m: Message, botId: string): (r: bool)
    ensures r <==> m.user.Some? && m.user.value == botId
  {
    m.user == Some(botId)
  }

  /** Written under the platform's own `slackbot` user name. */
  function IsFromSlackBot(m: Message): (r: bool)
    ensures r <==> m.username.Some? && m.username.value == "slackbot"
  {
    m.username == Some(SlackbotName)
  }

  /**
   The lowercased text contains the phrase or the bot's name. The name itself
   is not lowercased.
   */
  function IsMentioningServerStatus(text: string, name: string): (r: bool)
    ensures r <==> Contains(ToLowerAscii(text), Phrase) || Contains(ToLowerAscii(text), name)
  {
    IndexOf(ToLowerAscii(text), Phrase) > -1 || IndexOf(ToLowerAscii(text), name) > -1
  }

  /** The conjunction `_onMessage` tests before forcing a check. */
  function IsTrigger(m: Message, botId: string, name: string): (r: bool)
    ensures r <==>
              && m.kind == "message" && m.text.Some? && |m.text.value| > 0
              && m.channel.Some? && StartsWith(m.channel.value, "C")
              && m.user != Some(botId)
              && m.username != Some("slackbot")
              && (Contains(ToLowerAscii(m.text.value), "server status")
                  || Contains(ToLowerAscii(m.text.value), name))
  {
    && IsChatMessage(m)
    && IsChannelConversation(m)
    && !IsFromServerStatusBot(m, botId)
    && !IsFromSlackBot(m)
    && IsMentioningServerStatus(m.text.value, name)
  }

  /** Each of the five tests can veto a trigger on its own. */
  lemma AnyFailedTestRejects(m: Message, botId: string, name: string)
    requires
      || !IsChatMessage(m)
      || !IsChannelConversation(m)
      || IsFromServerStatusBot(m, botId)
      || IsFromSlackBot(m)
      || (m.text.Some? && !IsMentioningServerStatus(m.text.value, name))
    ensures !IsTrigger(m, botId, name)
  {
  }

  /** A direct-message channel (id starting with `D`) never triggers. */
  lemma DirectMessageNeverTriggers(m: Message, botId: string, name: string)
    requires m.channel.Some? && |m.channel.value| > 0 && m.channel.value[0] == 'D'
    ensures !IsTrigger(m, botId, name)
  {
  }

  /** The mention test ignores the case of ASCII letters in the text. */
  lemma MentionIgnoresCase(text: string, name: string)
    ensures IsMentioningServerStatus(text, name) == IsMentioningServerStatus(ToLowerAscii(text), name)
  {
    LowerIdempotent(text);
  }

  /**
   A name with an ASCII capital letter can never be found in lowercased text,
   so such a bot answers only to the phrase.
   */
  lemma CapitalisedNameNeverMatches(text: string, name: string, c: nat)
    requires c < |name| && IsUpperAscii(name[c])
    ensures IsMentioningServerStatus(text, name) <==> Contains(ToLowerAscii(text), Phrase)
  {
    var lower := ToLowerAscii(text);
    forall i | 0 <= i <= |lower|
      ensures !OccursAt(lower, name, i)
    {
      if i + |name| <= |lower| {
        assert lower[i..i + |name|][c] == lower[i + c];
      }
    }
  }

  /** "what's the server status?" in channel C123 from an ordinary user triggers. */
  lemma PhraseInChannelTriggers(botId: string)
    requires botId != "U999"
    ensures IsTrigger(Message("message", Some("what's the server status?"), Some("C123"), Some("U999"), None),
                      botId, "serverstatusbot")
  {
    var text := "what's the server status?";
    LowerOfLower(text);
    assert OccursAt(ToLowerAscii(text), Phrase, 11);
  }

  /** The same message in a direct-message channel does not trigger. */
  lemma PhraseInDirectMessageIgnored(botId: string)
    ensures !IsTrigger(Message("message", Some("what's the server status?"), Some("D123"), Some("U999"), None),
                       botId, "serverstatusbot")
  {
  }

  /** "hello" mentions neither the phrase nor the default name. */
  lemma GreetingIgnored(botId: string)
    ensures !IsTrigger(Message("message", Some("hello"), Some("C123"), Some("U999"), None),
                       botId, "serverstatusbot")
  {
    assert !Contains(ToLowerAscii("hello"), Phrase);
    assert !Contains(ToLowerAscii("hello"), "serverstatusbot");
  }
}

=== FILE: wrappers.dfy ===
/** Optional values: the model's stand-in for JavaScript's `null` and `undefined`. */
module Wrappers {

  datatype Option<+T> = None | Some(value: T)

  /** The zero- or one-element sequence holding the value of `o`, if any. */
  function ToSeq<T>(o: Option<T>): (s: seq<T>)
    ensures |s| <= 1
    ensures |s| == 1 <==> o.Some?
    ensures o.Some? ==> s[0] == o.value
  {
    match o
    case None => []
    case Some(v) => [v]
  }
}
